=== FILE: README.md ===
# receiptbox server ledger — a Dafny model

The receiptbox server takes expense receipts from a client as three strings:
a date `mm-dd`, a restaurant name and an amount. It validates them into an
entry (`createEntry`) and appends the entry as one line to a spreadsheet
workbook that has one sheet per month. This project models that core:

- **Entry validation** (`Entry.CreateEntry`). The checks run in the source's
  order:
  1. The amount must parse; otherwise the error is "Cannot read Amount".
  2. The date must split on `-` into exactly two parts.
  3. Each part must read as an integer in `strconv.Atoi`'s sense.
  4. The month must be in 1..12 and the day in 1..31.

  Failing any of checks 2–4 gives "Invalid date format. Please use mm-dd".
  An accepted entry keeps the caller's year and the restaurant string
  unchanged. Its date is the one Go's `time.Date` builds, so an overflowing
  day rolls into the next month: "02-31" becomes March 2 or 3
  (`Calendar.Normalize`).
- **Routing** (`Sheets.SheetNameForDate`). Month `m` in 1..12 goes to sheet
  `Months[m-1]` (`jan`..`dec`), and anything else goes to `Sheet1`.
- **Row placement** (`Sheets.FirstEmptyRow` and the loop
  `Sheets.FindFirstEmptyRow`). The result is the 1-based number of the first
  row that has no cells or whose column-A text trims to nothing. When every
  row is filled, it is one past the last row.
- **Bootstrap** (`Sheets.SetupSheet`, `Sheets.SetupFile`). A missing file
  becomes a new workbook. The twelve month sheets are then added unless a
  `jan` sheet already exists.
- **Update** (`Sheets.UpdateSheet`). The formatted date, the restaurant and
  the formatted amount are written into columns A, B and C of that row, in
  the entry's sheet. Nothing else changes.
- **One submission** (`Receipts.Submit`). A refused message yields the error
  text and leaves the file untouched. An accepted one is stored in its month
  sheet when that sheet exists; the reply is "OK" either way.

The workbook is a value: a `map` from sheet name to rows, where each row is
the sequence of its cell texts. The supporting Go library functions are
modelled where their behaviour matters to these properties:

- `strings.Split` with a one-character separator and `strings.TrimSpace`
  with `unicode.IsSpace` (module `Text`);
- `strconv.Atoi` over the 64-bit range, and `%d` formatting (module
  `Numbers`);
- `time.Date` day overflow (module `Calendar`).

The decimal parser, the amount formatter (`StringFixedBank(2)`) and the date
formatter (`Format("January 02, 2006")`) are function parameters. Nothing is
assumed about them beyond being functions.

The code keeps no running total of amounts, so the model has none.

## Model

| member | source | states |
|---|---|---|
| Text.IsSpace | main.go:170 | Go's `unicode.IsSpace`: the Latin-1 spaces plus the Unicode White_Space points U+1680, U+2000–U+200A, U+2028, U+2029, U+202F, U+205F and U+3000 |
| Text.IsSpaceTable | main.go:170 | below U+0100 white space is exactly tab, line feed, vertical tab, form feed, carriage return, space, NEL and no-break space; above it, white space lies within U+1680..U+3000 |
| Text.TrimSpace | main.go:170 | trimming leaves nothing exactly when the cell text is all white space, and otherwise the result starts and ends with a non-space character |
| Text.TrimSpaceRemovesOnlySpace | main.go:170 | the trimmed text is a factor of the original flanked only by white space |
| Text.Split | entry.go:33 | the parts number one more than the separators, no part contains the separator, and joining them back gives the input |
| Text.SplitWithoutSeparator | entry.go:33 | a string with no hyphen splits into itself alone |
| Text.SplitAfterHead | entry.go:33 | a hyphen-free head followed by a hyphen splits off as the first part |
| Text.SplitInTwo | entry.go:33-34 | the date splits into exactly `[a, b]` if and only if it is `a-b` with no hyphen in either half |
| Text.SplitInTwoIffOneSeparator | entry.go:33-36 | the split has two parts if and only if the date holds exactly one hyphen |
| Numbers.FormatNat | main.go:107 | the decimal text of a row number is all digits, has no leading zero and reads back as the number |
| Numbers.Atoi | entry.go:37 | `strconv.Atoi`: an accepted text has a value within Go's 64-bit `int` range, and a negative value only after a leading `-` |
| Numbers.AtoiFormatInt | entry.go:37 | the integer parser reads the decimal text of every 64-bit integer back as that integer |
| Numbers.AtoiAcceptsSignedDigits | entry.go:37 | every accepted text is digits, optionally after a single leading sign |
| Numbers.AtoiReadsSignedDigits | entry.go:44 | conversely, a sign (`+`, `-` or none) followed by one or more digits is accepted whenever its signed value fits 64 bits, and read as that value |
| Numbers.AtoiRejectsOutOfRange | entry.go:37 | a sign followed by digits whose signed value lies outside Go's 64-bit `int` range is refused, as `strconv.Atoi`'s range error |
| Numbers.AtoiTwoDigits | entry.go:37-50 | a two-digit field such as `02` or `31` reads as its decimal value |
| Numbers.AtoiTwoDigitField | entry.go:44 | any two-digit day field reads as the value of its digits, at most 99 |
| Calendar.DaysIn | entry.go:51 | month lengths lie in 28..31, exactly January, March, May, July, August, October and December have 31, and February has 29 exactly in leap years |
| Calendar.DaysInTable | entry.go:51 | the rest of the Gregorian table: April, June, September and November have 30 days, and February has 28 in common years |
| Calendar.DaysBeforeMonotone | entry.go:51 | later months start strictly later in the year, and no month starts before an earlier one |
| Calendar.DayOfYearDetermines | entry.go:51 | two valid dates of one year with the same day of the year are equal |
| Calendar.Normalize | entry.go:51 | the date built from a month in 1..12 and a day in 1..31 is a valid date of the same year and the same day of the year |
| Calendar.NormalizeRollsOver | entry.go:51 | a day that fits its month is kept; an overflowing one becomes day `day - DaysIn` of the next month |
| Entry.CreateEntry | entry.go:19-55 | the amount error occurs exactly when the amount does not parse; an accepted entry has month 1..12, day 1..31, the caller's year, the submitted restaurant and the parsed amount |
| Entry.AmountCheckedFirst | entry.go:26-29 | an unreadable amount is reported as such whatever the date holds |
| Entry.HyphenCountChecked | entry.go:33-36 | with a readable amount, a date with no hyphen or more than one is a date-format error |
| Entry.NonIntegerComponentRejected | entry.go:37-47 | a month or day part that is not an integer is a date-format error |
| Entry.OutOfRangeRejected | entry.go:41-50 | a month outside 1..12 or a day outside 1..31 is a date-format error |
| Entry.SameSplitPoint | entry.go:33-34 | `a-b` with hyphen-free halves is split at one place only |
| Entry.AcceptedEntryIsValid | entry.go:19-55 | every accepted message was `m-d` with one hyphen, `m` a month in 1..12 and `d` a day in 1..31, and the entry carries the parsed amount, the submitted restaurant and the caller's year |
| Entry.WellFormedMessageAccepted | entry.go:19-55 | conversely, every such message is accepted with exactly those fields |
| Entry.FebruaryThirtyFirstAccepted | entry.go:41-51 | "02-31" is accepted, since there is no per-month day check, and its date is March 2 in leap years and March 3 otherwise |
| Sheets.MonthNamesDistinct | main.go:24 | twelve distinct month sheet names, none of them the default sheet |
| Sheets.SheetNameFrom | main.go:153-159 | from index `i`, the routing loop finds `Months[m-1]` for months past `i` and otherwise falls through to `Sheet1` |
| Sheets.SheetNameForDate | main.go:152-160 | month `m` in 1..12 goes to `Months[m-1]`, anything else to `Sheet1` |
| Sheets.RoutingIsInjective | main.go:152-160 | two valid months share a sheet if and only if they are equal, and never use the default sheet |
| Sheets.InsertionPointUnique | main.go:162-177 | a sheet has exactly one insertion point |
| Sheets.FirstEmptyRow | main.go:162-177 | the result is in 1..len(rows)+1, every row above it is filled, and the row it names (if any) is blank |
| Sheets.FindFirstEmptyRow | main.go:162-177 | the scan returns the insertion point, the same number as the function |
| Sheets.SingleFilledRow | main.go:166-176 | a sheet with one filled row takes the next entry on row 2 |
| Sheets.FullSheetAppends | main.go:176 | when no row is blank the result is len(rows)+1 |
| Sheets.CellName | main.go:107-109 | the reference built by `fmt.Sprintf("%c%d")` starts with the column letter and continues with digits that spell the row number |
| Sheets.CellNameRoundTrip | main.go:107-109 | the references `A<n>`, `B<n>`, `C<n>` are read back as that column and row |
| Sheets.SetInRow | main.go:107-109 | a cell write sets that cell, pads a short row with empty cells and keeps the rest |
| Sheets.SetCell | main.go:107-109 | a cell write touches only its row, padding the sheet with empty rows when it is short |
| Sheets.SetCellValue | main.go:107-109 | a write to one sheet keeps the set of sheets and every other sheet |
| Sheets.NewSheet | main.go:142 | the named sheet exists afterwards, new ones empty, and every sheet already there keeps its rows |
| Sheets.AddSheets | main.go:141-146 | the loop adds the named sheets empty, keeps every existing sheet, and adds nothing else |
| Sheets.SetupSheet | main.go:135-146 | with `jan` present the workbook is unchanged; otherwise all twelve month sheets exist; old sheets are kept and only empty month sheets are added |
| Sheets.SetupFile | main.go:118-129 | a missing file is created and set up; afterwards `jan` exists |
| Sheets.SetupMakesMonthSheets | main.go:134-146 | after set-up all twelve month sheets exist, unless `jan` already existed without some other month |
| Sheets.SetupFileIdempotent | main.go:118-137 | setting up a file that was already set up leaves it as it is |
| Sheets.SetupSheetIdempotent | main.go:134-146 | setting up twice is setting up once |
| Sheets.SetupFreshWorkbook | main.go:141-146 | on a workbook without month sheets, set-up adds all twelve, empty |
| Sheets.WriteLine | main.go:107-109 | the three writes put the line in columns A, B and C of row `n`, keep that row's later cells and leave every other row alone |
| Sheets.SetCellValueByName | main.go:107-109 | writing through `fmt.Sprintf("%c%d")` writes that column of that row |
| Sheets.UpdateSheet | main.go:104-109 | only the entry's sheet changes, only at its insertion point; a missing sheet leaves the workbook as it was |
| Sheets.UpdateNeverOverwrites | main.go:104-109 | every row that was filled before an update is unchanged after it |
| Sheets.LinePlacedFrame | main.go:105-109 | writing the two cells of a line leaves the sheet no shorter and every other existing row as it was |
| Sheets.LinePlacedKeepsFilledRows | main.go:105-109 | a line placed at the insertion point leaves every filled row as it was |
| Sheets.LinePlacedAtEnd | main.go:107-109 | a line placed one past the last row is a new last row of exactly three cells |
| Sheets.UpdateFullSheetAppends | main.go:105-109 | on a sheet with no blank row the line is appended as a new last row |
| Sheets.LinePlacedAdvances | main.go:105-109 | placing a line with a non-blank date at the insertion point moves the insertion point down |
| Sheets.UpdateAdvancesInsertionPoint | main.go:104-109 | after an update with a non-blank date, the next entry for that sheet goes strictly lower |
| Receipts.LineForDate | main.go:107 | column A of the line holds the formatted date Go builds: the one valid date of the entry's year lying `day - 1` days after the first of the entry's month |
| Receipts.Submit | main.go:76-89 | the reply is a rejection exactly when validation fails, and a rejection leaves the file as it was; after a stored entry the file exists with a `jan` sheet |
| Receipts.RejectedSubmissionTouchesNothing | main.go:76-80 | a refused message leaves the file alone (a missing one is not created) and replies with one of the two validation texts |
| Receipts.AcceptedSubmissionAppendsOneLine | main.go:86-89 | when the sheet for the entry's normalised month exists once the file is set up, an accepted message is answered with "OK" and lands in the sheet of its normalised month (the submitted month, or the next one if and only if the day overflows it) at that sheet's insertion point, and every other sheet is unchanged |
| Receipts.MissingMonthSheetDropsEntry | main.go:135-137 | with `jan` present but the entry's month sheet absent, the workbook is unchanged yet the reply is "OK" |
| Receipts.MonthThirteenRejected | entry.go:41-43 | "13-01" is refused with the date-format text and the file is untouched |
| Receipts.AcceptedSubmissionOnFullSheet | main.go:86-89 | an accepted entry whose sheet has no blank row becomes that sheet's new last row |
| Receipts.JanuaryMessageAccepted | entry.go:19-55 | "01-dd" with a readable amount is January `dd` of the caller's year, routed to `jan` |
| Receipts.JanuaryEntryIntoNewFile | main.go:118-129 | a January entry sent to a missing file creates it with that line alone on `jan` |
| Receipts.JanuaryEntryOntoFilledSheet | main.go:162-176 | a January entry goes on a new last row of a `jan` sheet with no blank row |
| Receipts.TwoJanuaryEntriesInOrder | main.go:86-89 | two January entries sent to a missing file leave `jan` holding both lines in submission order on rows 1 and 2 |

## Left out

- HTTP handling, the listener and JSON decoding (main.go:35-90) are
  transport. The model starts from a decoded message.
- Concurrency is not modelled. Each submission is one atomic step, which
  simplifies the source. The mutex (main.go:96-97, 131-132) locks set-up
  and update separately, not the whole request. Set-up also opens the file,
  and creates and saves a new one, before it takes the lock
  (main.go:120-127). So two first submissions can interleave, and a late
  save of a fresh workbook can overwrite the other request's stored line.
- `log.Fatal` paths are left out. The process ends there, with no reply to
  model.
- Console output (main.go:49, 60, 82-84, 94, 115, 122, 126, 139, 149) is
  left out. It does not affect the reply or the file.
- Every save is assumed to succeed. The source ignores the errors of
  `SaveAs` and `Save` (main.go:125, 147). A `SaveAs` that keeps failing
  would make `setupSheet` call itself without end (main.go:127), and the
  model has no such run.
- Opening, saving and creating the file with the spreadsheet library is I/O.
  The file is an `Option` of a workbook value. `None` stands for any failure
  to open it. main.go:120-125 takes the new-file path on any `OpenFile`
  error, so an existing file that cannot be opened is replaced by an empty
  workbook. The model does not tell "missing" apart from "unreadable".
- Sheets.RowsOf: assumes `GetRows` on a sheet the workbook lacks yields no
  rows, so the insertion point is row 1. The library's code is not part of
  this model.
- Sheets.NewFile: assumes `excelize.NewFile` yields an empty `Sheet1` alone.
  The library's code is not part of this model.
- Column widths (main.go:143-145) are presentation only.
- Decimal parsing and `StringFixedBank(2)` are foreign code with banker's
  rounding. They are the parameters `parseAmount` and `formatAmount`, so no
  property depends on their internals.
- Go's `Time.Format` is foreign code. It is the parameter `formatDate`.
  `Receipts.TwoJanuaryEntriesInOrder` requires the formatted date not to be
  blank, which Go's layout guarantees.
- Calendar.Normalize: models `time.Date` only for months 1..12 and days
  1..31, the range `createEntry` lets through. Larger overflows cannot reach
  it. Years are taken to lie within the range Go's 64-bit time can
  represent. Beyond about ±292 billion years Go's date wraps, and its
  month, which picks the sheet, need not be the normalised one. The model
  routes and formats the exact date for every year.
- Sheets.SetCellValue: relies on library behaviour the source does not
  show. A write to a sheet the workbook lacks is taken to change nothing
  visible, since the source ignores the library's error. Only one-letter
  column references are parsed, the only kind the source builds.
- Sheets.NewSheet: relies on the library keeping an existing sheet of the
  same name. Set-up only reaches it when `jan` is absent.
- Sheets.SetupSheet: the "already set up" test looks only at `jan`, as
  `GetSheetIndex(months[0]) != 0` does. The model does not claim all twelve
  sheets exist afterwards when `jan` was present without the others.
- Sheet order is not modelled. The source creates the month sheets in a
  fixed order after `Sheet1` (main.go:141-142), and `GetSheetIndex` numbers
  them. A `map` has neither, so the model only says whether a sheet exists.
- Spreadsheet row limits are not modelled. Row numbers are unbounded.
- Spreadsheet cell-length limits are not modelled: a cell holds at most 32,767 characters, so a longer restaurant name would not be stored whole, while `Sheets.LinePlaced` records the restaurant cell as the full name.
- The year comes from the caller (`currentYear`, main.go:33-45), as in
  `createEntry`. Reading it from the command line or the clock is left out.

=== FILE: calendar.dfy ===
/** The part of Go's `time.Date` that the ledger exercises: building a date
    from a year, a month in 1..12 and a day in 1..31, where a day past the end
    of its month rolls over into the next month (February 31 becomes March 2
    or 3). The proleptic Gregorian calendar is used, as Go does; years are
    unbounded here, whereas Go's 64-bit seconds count wraps for years beyond
    about 292 billion. */
module Calendar {

  /** A calendar date; `Valid` says when it names a real day. */
  datatype Date = Date(year: int, month: int, day: int)

  /** Gregorian leap years. Divisibility does not depend on the sign
      convention of `%`, so this agrees with Go for negative years too. */
  predicate IsLeapYear(y: int) {
    y % 4 == 0 && (y % 100 != 0 || y % 400 == 0)
  }

  /** Number of days in month `m` of year `y`. */
  function DaysIn(y: int, m: int): (n: int)
    requires 1 <= m <= 12
    ensures 28 <= n <= 31
    ensures n == 31 <==> m in {1, 3, 5, 7, 8, 10, 12}
    ensures m == 2 ==> (n == 29 <==> IsLeapYear(y))
  {
    if m == 2 then (if IsLeapYear(y) then 29 else 28)
    else if m == 4 || m == 6 || m == 9 || m == 11 then 30
    else 31
  }

  /** The full month table: April, June, September and November have 30
      days, and February has 29 in leap years and 28 otherwise. */
  lemma DaysInTable(y: int, m: int)
    requires 1 <= m <= 12
    ensures m in {4, 6, 9, 11} ==> DaysIn(y, m) == 30
    ensures m == 2 ==> DaysIn(y, m) == (if IsLeapYear(y) then 29 else 28)
  {
  }

  predicate Valid(d: Date) {
    1 <= d.month <= 12 && 1 <= d.day <= DaysIn(d.year, d.month)
  }

  /** Days of year `y` that come before the first of month `m`
      (`m == 13` gives the length of the year). */
  function DaysBefore(y: int, m: int): nat
    requires 1 <= m <= 13
  {
    if m == 1 then 0 else DaysBefore(y, m - 1) + DaysIn(y, m - 1)
  }

  /** Position of a date within its year, counting January 1 as day 1. */
  function DayOfYear(d: Date): int
    requires 1 <= d.month <= 12
  {
    DaysBefore(d.year, d.month) + d.day
  }

  /** Later months start later in the year: the first of month `m2` comes
      strictly after the first of an earlier month `m1`. */
  lemma {:induction false} DaysBeforeMonotone(y: int, m1: int, m2: int)
    requires 1 <= m1 <= m2 <= 13
    ensures DaysBefore(y, m1) <= DaysBefore(y, m2)
    ensures m1 < m2 ==> DaysBefore(y, m1) < DaysBefore(y, m2)
    decreases m2 - m1
  {
    if m1 < m2 {
      DaysBeforeMonotone(y, m1, m2 - 1);
    }
  }

  /** Two valid dates of one year with the same day-of-year are equal: a
      valid date is determined by its year and its day-of-year. */
  lemma DayOfYearDetermines(a: Date, b: Date)
    requires Valid(a) && Valid(b) && a.year == b.year
    requires DayOfYear(a) == DayOfYear(b)
    ensures a == b
  {
    if a.month < b.month {
      DaysBeforeMonotone(a.year, a.month + 1, b.month);
      assert false;
    } else if b.month < a.month {
      DaysBeforeMonotone(a.year, b.month + 1, a.month);
      assert false;
    }
  }

  /** `time.Date(year, month, day, ...)` for a month in 1..12 and a day in
      1..31: the valid date lying `day - 1` days after the first of the given
      month. As December has 31 days, the year never changes. */
  function Normalize(year: int, month: int, day: int): (d: Date)
    requires 1 <= month <= 12 && 1 <= day <= 31
    ensures Valid(d) && d.year == year
    ensures DayOfYear(d) == DaysBefore(year, month) + day
  {
    var length := DaysIn(year, month);
    if day <= length then Date(year, month, day)
    else Date(year, month + 1, day - length)
  }

  /** A day that fits its month is kept as it is; one that does not rolls
      into the following month. */
  lemma NormalizeRollsOver(year: int, month: int, day: int)
    requires 1 <= month <= 12 && 1 <= day <= 31
    ensures day <= DaysIn(year, month) ==> Normalize(year, month, day) == Date(year, month, day)
    ensures day > DaysIn(year, month) ==>
      Normalize(year, month, day) == Date(year, month + 1, day - DaysIn(year, month))
  {
    var d := Normalize(year, month, day);
    if day <= DaysIn(year, month) {
      DayOfYearDetermines(d, Date(year, month, day));
    } else {
      assert month < 12;
      DayOfYearDetermines(d, Date(year, month + 1, day - DaysIn(year, month)));
    }
  }
}

=== FILE: entry.dfy ===
/** `createEntry`: turning the three raw strings a client sends into a typed
    expense entry, or into the error message the client gets back. */
module Entry {
  import opened Wrappers
  import Text
  import Numbers
  import Calendar

  /** The reply text for a date that is not `mm-dd`. */
  const InvalidDateFormat: string := "Invalid date format. Please use mm-dd"
  /** The reply text for an amount that is not a decimal number. */
  const CannotReadAmount: string := "Cannot read Amount"

  /** The raw JSON fields a client submits, all strings. */
  datatype Message = Message(date: string, restaurant: string, amount: string)

  /** Why a message was refused. */
  datatype EntryError = AmountUnreadable | BadDateFormat {
    /** The text sent back to the client. */
    function ReplyText(): string {
      match this
      case AmountUnreadable => CannotReadAmount
      case BadDateFormat => InvalidDateFormat
    }
  }

  /** A validated entry, generic in the decimal type `D` of the amount. It
      keeps the year, month and day handed to `time.Date`; `Time` is the date
      value Go builds from them. */
  datatype Entry<D> = Entry(year: int, month: int, day: int, restaurant: string, amount: D) {
    /** The (normalised) date the source stores in the entry. */
    function Time(): (t: Calendar.Date)
      requires 1 <= month <= 12 && 1 <= day <= 31
      ensures Calendar.Valid(t) && t.year == year
    {
      Calendar.Normalize(year, month, day)
    }
  }

  /** `createEntry(msg, year)`. The decimal parser (`decimal.NewFromString`)
      is the parameter `parseAmount`. Checks run in the source's order: the
      amount, the `-` split into two parts, the month as an integer and in
      1..12, the day as an integer and in 1..31. The year comes from the
      caller, never from the message. */
  function CreateEntry<D>(msg: Message, year: int, parseAmount: string -> Option<D>): (r: Result<Entry<D>, EntryError>)
    ensures r == Err(AmountUnreadable) <==> parseAmount(msg.amount).None?
    ensures r.Ok? ==> 1 <= r.value.month <= 12 && 1 <= r.value.day <= 31
    ensures r.Ok? ==> r.value.year == year && r.value.restaurant == msg.restaurant
    ensures r.Ok? ==> parseAmount(msg.amount) == Some(r.value.amount)
  {
    match parseAmount(msg.amount)
    case None => Err(AmountUnreadable)
    case Some(amount) =>
      var parts := Text.Split(msg.date, '-');
      if |parts| != 2 then Err(BadDateFormat)
      else
        match Numbers.Atoi(parts[0])
        case None => Err(BadDateFormat)
        case Some(month) =>
          if month > 12 || month < 1 then Err(BadDateFormat)
          else
            match Numbers.Atoi(parts[1])
            case None => Err(BadDateFormat)
            case Some(day) =>
              if day > 31 || day < 1 then Err(BadDateFormat)
              else Ok(Entry(year, month, day, msg.restaurant, amount))
  }

  /** The amount is checked first: an unreadable amount is reported as such
      whatever the date looks like. */
  lemma AmountCheckedFirst<D>(msg: Message, year: int, parseAmount: string -> Option<D>)
    requires parseAmount(msg.amount).None?
    ensures CreateEntry(msg, year, parseAmount) == Err(AmountUnreadable)
  {
  }

  /** With a readable amount, a date holding no hyphen or more than one is a
      date-format error. */
  lemma HyphenCountChecked<D>(msg: Message, year: int, parseAmount: string -> Option<D>)
    requires parseAmount(msg.amount).Some?
    requires Text.Occurrences(msg.date, '-') != 1
    ensures CreateEntry(msg, year, parseAmount) == Err(BadDateFormat)
  {
    Text.SplitInTwoIffOneSeparator(msg.date, '-');
  }

  /** With a readable amount, a date `m-d` whose month or day is not an
      integer in `strconv.Atoi`'s sense is a date-format error. */
  lemma NonIntegerComponentRejected<D>(msg: Message, year: int, parseAmount: string -> Option<D>, m: string, d: string)
    requires parseAmount(msg.amount).Some?
    requires msg.date == m + "-" + d
    requires Numbers.Atoi(m).None? || Numbers.Atoi(d).None?
    ensures CreateEntry(msg, year, parseAmount).Err?
    ensures CreateEntry(msg, year, parseAmount).error == BadDateFormat
  {
    var parts := Text.Split(msg.date, '-');
    if |parts| == 2 {
      Text.SplitInTwo(msg.date, '-', parts[0], parts[1]);
      SameSplitPoint(m, d, parts[0], parts[1]);
    }
  }

  /** With a readable amount, a date `m-d` whose month reads as an integer
      outside 1..12, or whose day reads as one outside 1..31, is a date-format
      error. (A negative component brings a second hyphen, which
      `HyphenCountChecked` covers.) */
  lemma OutOfRangeRejected<D>(msg: Message, year: int, parseAmount: string -> Option<D>, m: string, d: string, month: int, day: int)
    requires parseAmount(msg.amount).Some?
    requires msg.date == m + "-" + d && '-' !in m && '-' !in d
    requires Numbers.Atoi(m) == Some(month) && Numbers.Atoi(d) == Some(day)
    requires !(1 <= month <= 12) || !(1 <= day <= 31)
    ensures CreateEntry(msg, year, parseAmount) == Err(BadDateFormat)
  {
    Text.SplitInTwo(msg.date, '-', m, d);
  }

  /** Splitting at the only hyphen is unambiguous. */
  lemma SameSplitPoint(a: string, b: string, c: string, d: string)
    requires a + "-" + b == c + "-" + d
    requires '-' !in c && '-' !in d
    ensures a == c && b == d
  {
    var s := a + "-" + b;
    assert s[|a|] == '-';
    assert |a| == |c|;
    assert a == s[..|a|] && c == s[..|c|];
    assert b == s[|a| + 1..] && d == s[|c| + 1..];
  }

  /** Everything an accepted entry satisfies: the amount is what the parser
      returned, the restaurant is the submitted string unchanged (even when
      empty), the year is the caller's, and the date was `m-d` with a single
      hyphen, where `m` reads as a month in 1..12 and `d` as a day in 1..31 —
      with no check against the length of that month. */
  lemma AcceptedEntryIsValid<D>(msg: Message, year: int, parseAmount: string -> Option<D>)
    returns (m: string, d: string)
    requires CreateEntry(msg, year, parseAmount).Ok?
    ensures var e := CreateEntry(msg, year, parseAmount).value;
      && parseAmount(msg.amount) == Some(e.amount)
      && e.restaurant == msg.restaurant
      && e.year == year
      && 1 <= e.month <= 12 && 1 <= e.day <= 31
      && msg.date == m + "-" + d && '-' !in m && '-' !in d
      && Numbers.Atoi(m) == Some(e.month) && Numbers.Atoi(d) == Some(e.day)
  {
    var parts := Text.Split(msg.date, '-');
    m, d := parts[0], parts[1];
    Text.SplitInTwo(msg.date, '-', m, d);
  }

  /** Conversely, every message of that shape is accepted, with exactly those
      fields. */
  lemma WellFormedMessageAccepted<D>(msg: Message, year: int, parseAmount: string -> Option<D>, m: string, d: string, month: int, day: int, amount: D)
    requires parseAmount(msg.amount) == Some(amount)
    requires msg.date == m + "-" + d && '-' !in m && '-' !in d
    requires Numbers.Atoi(m) == Some(month) && 1 <= month <= 12
    requires Numbers.Atoi(d) == Some(day) && 1 <= day <= 31
    ensures CreateEntry(msg, year, parseAmount) == Ok(Entry(year, month, day, msg.restaurant, amount))
  {
    Text.SplitInTwo(msg.date, '-', m, d);
  }

  /** "02-31" is accepted as month 2, day 31: there is no per-month day
      count. The date Go builds from it is March 2 or 3. */
  lemma FebruaryThirtyFirstAccepted<D>(restaurant: string, amountText: string, year: int, parseAmount: string -> Option<D>, amount: D)
    requires parseAmount(amountText) == Some(amount)
    ensures CreateEntry(Message("02-31", restaurant, amountText), year, parseAmount)
         == Ok(Entry(year, 2, 31, restaurant, amount))
    ensures Entry(year, 2, 31, restaurant, amount).Time()
         == Calendar.Date(year, 3, if Calendar.IsLeapYear(year) then 2 else 3)
  {
    Numbers.AtoiTwoDigits('0', '2');
    Numbers.AtoiTwoDigits('3', '1');
    assert "02-31" == "02" + "-" + "31";
    WellFormedMessageAccepted(Message("02-31", restaurant, amountText), year, parseAmount, "02", "31", 2, 31, amount);
    Calendar.NormalizeRollsOver(year, 2, 31);
  }
}

=== FILE: numbers.dfy ===
/** Decimal integers as Go's `strconv` reads and `fmt`'s `%d` writes them,
    on a 64-bit platform (Go's `int` is 64 bits wide there). */
module Numbers {
  import opened Wrappers

  /** Bounds of Go's 64-bit `int`. */
  const MinInt: int := -0x8000_0000_0000_0000
  const MaxInt: int := 0x7FFF_FFFF_FFFF_FFFF

  predicate IsDigit(c: char) {
    '0' <= c <= '9'
  }

  predicate AllDigits(s: string) {
    forall i :: 0 <= i < |s| ==> IsDigit(s[i])
  }

  function DigitValue(c: char): (d: nat)
    requires IsDigit(c)
    ensures d <= 9
  {
    (c as int) - ('0' as int)
  }

  function DigitChar(d: nat): (c: char)
    requires d <= 9
    ensures IsDigit(c) && DigitValue(c) == d
  {
    (('0' as int) + d) as char
  }

  /** The number a string of decimal digits denotes, most significant first. */
  function DigitsValue(s: string): nat
    requires AllDigits(s)
  {
    if |s| == 0 then 0
    else DigitsValue(s[..|s| - 1]) * 10 + DigitValue(s[|s| - 1])
  }

  /** Go's `strconv.Atoi`: an optional `+` or `-` sign followed by one or more
      decimal digits (no spaces, no underscores, no base prefix), whose value
      fits Go's 64-bit `int`; anything else is an error (`None`). */
  function Atoi(s: string): (r: Option<int>)
    ensures r.Some? ==> MinInt <= r.value <= MaxInt
    ensures r.Some? ==> |s| >= 1 && (r.value < 0 ==> s[0] == '-')
  {
    if |s| == 0 then None
    else
      var digits := if s[0] == '+' || s[0] == '-' then s[1..] else s;
      if |digits| == 0 || !AllDigits(digits) then None
      else
        var magnitude: int := DigitsValue(digits);
        var n := if s[0] == '-' then -magnitude else magnitude;
        if MinInt <= n <= MaxInt then Some(n) else None
  }

  /** The shortest decimal spelling of a natural number, as `%d` prints it. */
  function FormatNat(n: nat): (s: string)
    ensures |s| >= 1 && AllDigits(s)
    ensures DigitsValue(s) == n
    ensures |s| > 1 ==> s[0] != '0'
  {
    if n < 10 then [DigitChar(n)]
    else
      var s := FormatNat(n / 10) + [DigitChar(n % 10)];
      assert s[..|s| - 1] == FormatNat(n / 10);
      s
  }

  /** `%d` / `strconv.Itoa`: a minus sign for negative numbers, then the
      digits of the magnitude. */
  function FormatInt(n: int): string {
    if n < 0 then "-" + FormatNat(-n) else FormatNat(n)
  }

  /** Reading back what `%d` wrote gives the number back, for every value of
      Go's `int`. */
  lemma AtoiFormatInt(n: int)
    requires MinInt <= n <= MaxInt
    ensures Atoi(FormatInt(n)) == Some(n)
  {
    var s := FormatInt(n);
    if n < 0 {
      assert s[1..] == FormatNat(-n);
    } else {
      var f := FormatNat(n);
      assert f[0] != '+' && f[0] != '-' by {
        assert IsDigit(f[0]);
      }
    }
  }

  /** What `Atoi` accepts has the shape sign-then-digits: every character
      after the first is a digit, and the first is a digit or a sign that is
      followed by at least one digit. */
  lemma AtoiAcceptsSignedDigits(s: string)
    requires Atoi(s).Some?
    ensures |s| >= 1
    ensures forall i :: 1 <= i < |s| ==> IsDigit(s[i])
    ensures IsDigit(s[0]) || ((s[0] == '+' || s[0] == '-') && |s| >= 2)
  {
    if s[0] == '+' || s[0] == '-' {
      var d := s[1..];
      forall i | 1 <= i < |s|
        ensures IsDigit(s[i])
      {
        assert s[i] == d[i - 1];
      }
    }
  }

  /** A two-digit field reads as the value of its digits. */
  lemma AtoiTwoDigitField(dd: string)
    requires |dd| == 2 && AllDigits(dd)
    ensures DigitsValue(dd) <= 99
    ensures Atoi(dd) == Some(DigitsValue(dd))
  {
    AtoiTwoDigits(dd[0], dd[1]);
    assert [dd[0], dd[1]] == dd;
  }

  /** Conversely, an optional sign followed by one or more digits is
      accepted whenever its signed value fits Go's `int`, and read as that
      value. */
  lemma AtoiReadsSignedDigits(sign: string, digits: string)
    requires sign == "" || sign == "+" || sign == "-"
    requires |digits| >= 1 && AllDigits(digits)
    requires var v: int := DigitsValue(digits);
      MinInt <= (if sign == "-" then -v else v) <= MaxInt
    ensures var v: int := DigitsValue(digits);
      Atoi(sign + digits) == Some(if sign == "-" then -v else v)
  {
    var s := sign + digits;
    var v: int := DigitsValue(digits);
    if sign == "" {
      assert s == digits;
      assert IsDigit(s[0]) && s[0] != '+' && s[0] != '-';
    } else {
      assert s[0] == sign[0] && (s[0] == '+' || s[0] == '-');
      assert s[1..] == digits;
    }
    assert Atoi(s) == Some(if sign == "-" then -v else v);
  }

  /** A sign-then-digits text whose signed value does not fit Go's `int` is
      refused, as `strconv.Atoi`'s range error does. */
  lemma AtoiRejectsOutOfRange(sign: string, digits: string)
    requires sign == "" || sign == "+" || sign == "-"
    requires |digits| >= 1 && AllDigits(digits)
    requires var v: int := DigitsValue(digits);
      !(MinInt <= (if sign == "-" then -v else v) <= MaxInt)
    ensures Atoi(sign + digits) == None
  {
    var s := sign + digits;
    if sign == "" {
      assert s == digits;
      assert IsDigit(s[0]) && s[0] != '+' && s[0] != '-';
    } else {
      assert s[0] == sign[0] && (s[0] == '+' || s[0] == '-');
      assert s[1..] == digits;
    }
  }

  /** `Atoi` reads a two-digit field such as "02" or "31" as its value; a
      leading zero is allowed, which is how months and days are usually
      written. */
  lemma AtoiTwoDigits(hi: char, lo: char)
    requires IsDigit(hi) && IsDigit(lo)
    ensures DigitsValue([hi, lo]) == 10 * DigitValue(hi) + DigitValue(lo)
    ensures Atoi([hi, lo]) == Some(10 * DigitValue(hi) + DigitValue(lo))
  {
    var s := [hi, lo];
    assert s[..1] == [hi];
    assert [hi][..0] == [];
    assert DigitsValue(s[..1]) == DigitValue(hi);
    assert DigitsValue(s) == 10 * DigitValue(hi) + DigitValue(lo);
  }
}

=== FILE: receipts.dfy ===
/** What the request handler does with a submitted message once it is
    decoded: validate it, reply with the error text if it is refused, and
    otherwise set up the workbook and append the entry to its month sheet.
    The workbook file is a value: `None` when it cannot be opened, which the
    source treats as not existing yet. */
module Receipts {
  import opened Wrappers
  import Text
  import Numbers
  import Calendar
  import Entry
  import Sheets

  /** The handler's answer to the client. */
  datatype Reply = Rejected(error: Entry.EntryError) | Stored {
    function ReplyText(): string {
      match this
      case Rejected(e) => e.ReplyText()
      case Stored => "OK"
    }
  }

  /** The ledger line for an entry: the formatted date (Go's `Format`), the
      restaurant as submitted, and the formatted amount (`StringFixedBank(2)`).
      Both formatters are parameters. */
  function LineFor<D>(e: Entry.Entry<D>, formatDate: Calendar.Date -> string, formatAmount: D -> string): (line: Sheets.Line)
    requires 1 <= e.month <= 12 && 1 <= e.day <= 31
    ensures line.date == formatDate(e.Time())
    ensures line.restaurant == e.restaurant
    ensures line.amount == formatAmount(e.amount)
  {
    Sheets.Line(formatDate(e.Time()), e.restaurant, formatAmount(e.amount))
  }

  /** Column A of an entry's line is the formatted date Go builds for it:
      the one valid date of the entry's year that lies `day - 1` days after
      the first of the entry's month. */
  lemma LineForDate<D>(e: Entry.Entry<D>, formatDate: Calendar.Date -> string, formatAmount: D -> string, d: Calendar.Date)
    requires 1 <= e.month <= 12 && 1 <= e.day <= 31
    requires Calendar.Valid(d) && d.year == e.year
    requires Calendar.DayOfYear(d) == Calendar.DaysBefore(e.year, e.month) + e.day
    ensures LineFor(e, formatDate, formatAmount).date == formatDate(d)
  {
    Calendar.DayOfYearDetermines(d, e.Time());
  }

  /** One submission: the reply and the workbook file afterwards. */
  function Submit<D>(file: Option<Sheets.Workbook>, msg: Entry.Message, year: int,
                     parseAmount: string -> Option<D>,
                     formatDate: Calendar.Date -> string, formatAmount: D -> string): (out: (Reply, Option<Sheets.Workbook>))
    ensures out.0.Rejected? <==> Entry.CreateEntry(msg, year, parseAmount).Err?
    ensures out.0.Rejected? ==> out.1 == file
    ensures out.0.Stored? ==> out.1.Some? && Sheets.Months[0] in out.1.value
  {
    match Entry.CreateEntry(msg, year, parseAmount)
    case Err(err) => (Rejected(err), file)
    case Ok(e) =>
      var wb := Sheets.SetupFile(file);
      (Stored, Some(Sheets.UpdateSheet(wb, e.Time(), LineFor(e, formatDate, formatAmount))))
  }

  /** A refused message changes nothing: the file stays as it was (even a
      missing one is not created), and the reply is the validation text. */
  lemma RejectedSubmissionTouchesNothing<D>(file: Option<Sheets.Workbook>, msg: Entry.Message, year: int,
                                           parseAmount: string -> Option<D>,
                                           formatDate: Calendar.Date -> string, formatAmount: D -> string)
    requires Entry.CreateEntry(msg, year, parseAmount).Err?
    ensures var out := Submit(file, msg, year, parseAmount, formatDate, formatAmount);
      && out.1 == file
      && out.0.ReplyText() == Entry.CreateEntry(msg, year, parseAmount).error.ReplyText()
      && out.0.ReplyText() in {Entry.CannotReadAmount, Entry.InvalidDateFormat}
  {
  }

  /** An accepted message lands in exactly one month sheet — that of the
      date Go builds, which is the submitted month, or the next one when the
      day overflows the month — at that sheet's first empty row; every other
      sheet of the set-up workbook is unchanged. */
  lemma AcceptedSubmissionAppendsOneLine<D>(file: Option<Sheets.Workbook>, msg: Entry.Message, year: int,
                                           parseAmount: string -> Option<D>,
                                           formatDate: Calendar.Date -> string, formatAmount: D -> string)
    returns (e: Entry.Entry<D>, before: Sheets.Workbook, after: Sheets.Workbook, target: string)
    requires Entry.CreateEntry(msg, year, parseAmount).Ok?
    requires Sheets.SheetNameForDate(Entry.CreateEntry(msg, year, parseAmount).value.Time()) in Sheets.SetupFile(file)
    ensures Entry.CreateEntry(msg, year, parseAmount) == Ok(e)
    ensures 1 <= e.month <= 12 && 1 <= e.day <= 31
    ensures before == Sheets.SetupFile(file)
    ensures Submit(file, msg, year, parseAmount, formatDate, formatAmount) == (Stored, Some(after))
    ensures e.Time().month == e.month <==> e.day <= Calendar.DaysIn(year, e.month)
    ensures e.Time().month != e.month ==> e.Time().month == e.month + 1
    ensures target == Sheets.Months[e.Time().month - 1]
    ensures target in before && after.Keys == before.Keys
    ensures forall name :: name in before && name != target ==> after[name] == before[name]
    ensures Sheets.LinePlaced(before[target], after[target], Sheets.FirstEmptyRow(before[target]),
                              LineFor(e, formatDate, formatAmount))
  {
    e := Entry.CreateEntry(msg, year, parseAmount).value;
    var t := e.Time();
    before := Sheets.SetupFile(file);
    var line := LineFor(e, formatDate, formatAmount);
    Calendar.NormalizeRollsOver(year, e.month, e.day);
    target := Sheets.Months[t.month - 1];
    assert Sheets.SheetNameForDate(t) == target;
    after := Sheets.UpdateSheet(before, t, line);
    assert Submit(file, msg, year, parseAmount, formatDate, formatAmount) == (Stored, Some(after)) by {
      SubmitAccepted(file, msg, year, parseAmount, formatDate, formatAmount);
    }
  }

  /** The accepted path of `Submit`, spelled out: set up, then update. */
  lemma SubmitAccepted<D>(file: Option<Sheets.Workbook>, msg: Entry.Message, year: int,
                         parseAmount: string -> Option<D>,
                         formatDate: Calendar.Date -> string, formatAmount: D -> string)
    requires Entry.CreateEntry(msg, year, parseAmount).Ok?
    ensures var e := Entry.CreateEntry(msg, year, parseAmount).value;
      Submit(file, msg, year, parseAmount, formatDate, formatAmount)
      == (Stored, Some(Sheets.UpdateSheet(Sheets.SetupFile(file), e.Time(), LineFor(e, formatDate, formatAmount))))
  {
  }

  /** When the workbook has a `jan` sheet but lacks the entry's month sheet,
      set-up does not add it and the write goes nowhere the workbook can
      show, yet the client is still told "OK". */
  lemma MissingMonthSheetDropsEntry<D>(wb: Sheets.Workbook, msg: Entry.Message, year: int,
                                      parseAmount: string -> Option<D>,
                                      formatDate: Calendar.Date -> string, formatAmount: D -> string)
    requires Entry.CreateEntry(msg, year, parseAmount).Ok?
    requires Sheets.Months[0] in wb
    requires Sheets.SheetNameForDate(Entry.CreateEntry(msg, year, parseAmount).value.Time()) !in wb
    ensures Submit(Some(wb), msg, year, parseAmount, formatDate, formatAmount) == (Stored, Some(wb))
  {
  }

  /** A month that is out of range ("13-01") is refused with the date-format
      text, and the file is not touched. */
  lemma MonthThirteenRejected<D>(file: Option<Sheets.Workbook>, restaurant: string, amountText: string, year: int,
                                parseAmount: string -> Option<D>,
                                formatDate: Calendar.Date -> string, formatAmount: D -> string)
    requires parseAmount(amountText).Some?
    ensures var out := Submit(file, Entry.Message("13-01", restaurant, amountText), year, parseAmount, formatDate, formatAmount);
      out == (Rejected(Entry.BadDateFormat), file)
      && out.0.ReplyText() == "Invalid date format. Please use mm-dd"
  {
    var msg := Entry.Message("13-01", restaurant, amountText);
    Numbers.AtoiTwoDigits('1', '3');
    Numbers.AtoiTwoDigits('0', '1');
    assert "13-01" == "13" + "-" + "01";
    Entry.OutOfRangeRejected(msg, year, parseAmount, "13", "01", 13, 1);
  }

  /** When the entry's sheet exists after set-up and all its rows are
      filled, the entry's line becomes a new last row of that sheet. */
  lemma AcceptedSubmissionOnFullSheet<D>(file: Option<Sheets.Workbook>, msg: Entry.Message, year: int,
                                        parseAmount: string -> Option<D>,
                                        formatDate: Calendar.Date -> string, formatAmount: D -> string)
    requires Entry.CreateEntry(msg, year, parseAmount).Ok?
    requires var name := Sheets.SheetNameForDate(Entry.CreateEntry(msg, year, parseAmount).value.Time());
      var rows := Sheets.RowsOf(Sheets.SetupFile(file), name);
      && name in Sheets.SetupFile(file)
      && forall i :: 0 <= i < |rows| ==> !Sheets.IsBlankRow(rows[i])
    ensures var e := Entry.CreateEntry(msg, year, parseAmount).value;
      var name := Sheets.SheetNameForDate(e.Time());
      var line := LineFor(e, formatDate, formatAmount);
      var out := Submit(file, msg, year, parseAmount, formatDate, formatAmount);
      && out.1.Some? && name in out.1.value
      && out.1.value[name] == Sheets.SetupFile(file)[name] + [[line.date, line.restaurant, line.amount]]
  {
    var e := Entry.CreateEntry(msg, year, parseAmount).value;
    SubmitAccepted(file, msg, year, parseAmount, formatDate, formatAmount);
    Sheets.UpdateFullSheetAppends(Sheets.SetupFile(file), e.Time(), LineFor(e, formatDate, formatAmount));
  }

  /** A January message "01-dd" with a readable amount is accepted as
      January `dd` of the caller's year, routed to the `jan` sheet. */
  lemma JanuaryMessageAccepted<D>(msg: Entry.Message, year: int, parseAmount: string -> Option<D>,
                                 dd: string, amount: D)
    requires |dd| == 2 && Numbers.AllDigits(dd) && 1 <= Numbers.DigitsValue(dd) <= 31
    requires msg.date == "01-" + dd
    requires parseAmount(msg.amount) == Some(amount)
    ensures var e := Entry.Entry(year, 1, Numbers.DigitsValue(dd), msg.restaurant, amount);
      && Entry.CreateEntry(msg, year, parseAmount) == Ok(e)
      && e.Time() == Calendar.Date(year, 1, Numbers.DigitsValue(dd))
      && Sheets.SheetNameForDate(e.Time()) == "jan"
  {
    var day := Numbers.DigitsValue(dd);
    Numbers.AtoiTwoDigits('0', '1');
    Numbers.AtoiTwoDigitField(dd);
    assert msg.date == "01" + "-" + dd;
    Entry.WellFormedMessageAccepted(msg, year, parseAmount, "01", dd, 1, day, amount);
    Calendar.NormalizeRollsOver(year, 1, day);
  }

  /** A January entry submitted to a missing file creates it, with the
      entry's line alone on the `jan` sheet. */
  lemma JanuaryEntryIntoNewFile<D>(msg: Entry.Message, year: int, parseAmount: string -> Option<D>,
                                  formatDate: Calendar.Date -> string, formatAmount: D -> string,
                                  dd: string, amount: D)
    requires |dd| == 2 && Numbers.AllDigits(dd) && 1 <= Numbers.DigitsValue(dd) <= 31
    requires msg.date == "01-" + dd
    requires parseAmount(msg.amount) == Some(amount)
    ensures var out := Submit(None, msg, year, parseAmount, formatDate, formatAmount);
      && out.0 == Stored && out.1.Some? && "jan" in out.1.value
      && out.1.value["jan"] == [[formatDate(Calendar.Date(year, 1, Numbers.DigitsValue(dd))), msg.restaurant, formatAmount(amount)]]
  {
    JanuaryMessageAccepted(msg, year, parseAmount, dd, amount);
    assert Sheets.SetupFile(None)["jan"] == [];
    AcceptedSubmissionOnFullSheet(None, msg, year, parseAmount, formatDate, formatAmount);
  }

  /** A January entry submitted to a file whose `jan` sheet has no empty
      row goes on a new last row of that sheet. */
  lemma JanuaryEntryOntoFilledSheet<D>(wb: Sheets.Workbook, msg: Entry.Message, year: int, parseAmount: string -> Option<D>,
                                      formatDate: Calendar.Date -> string, formatAmount: D -> string,
                                      dd: string, amount: D)
    requires |dd| == 2 && Numbers.AllDigits(dd) && 1 <= Numbers.DigitsValue(dd) <= 31
    requires msg.date == "01-" + dd
    requires parseAmount(msg.amount) == Some(amount)
    requires "jan" in wb && Sheets.FirstEmptyRow(wb["jan"]) == |wb["jan"]| + 1
    ensures var out := Submit(Some(wb), msg, year, parseAmount, formatDate, formatAmount);
      && out.0 == Stored && out.1.Some? && "jan" in out.1.value
      && out.1.value["jan"] == wb["jan"] + [[formatDate(Calendar.Date(year, 1, Numbers.DigitsValue(dd))), msg.restaurant, formatAmount(amount)]]
  {
    JanuaryMessageAccepted(msg, year, parseAmount, dd, amount);
    assert Sheets.SetupFile(Some(wb)) == wb;
    AcceptedSubmissionOnFullSheet(Some(wb), msg, year, parseAmount, formatDate, formatAmount);
  }

  /** Two January entries submitted one after the other to a missing file
      (for instance "01-15" at Cafe A, then "01-20" at Cafe B): the file is
      created, and the `jan` sheet holds the two lines in submission order,
      on rows 1 and 2. `wb1` and `wb2` are the file after each submission. */
  lemma TwoJanuaryEntriesInOrder<D>(m1: Entry.Message, m2: Entry.Message, dd1: string, dd2: string, year: int,
                                   parseAmount: string -> Option<D>,
                                   formatDate: Calendar.Date -> string, formatAmount: D -> string,
                                   a1: D, a2: D)
    returns (wb1: Sheets.Workbook, wb2: Sheets.Workbook)
    requires |dd1| == 2 && Numbers.AllDigits(dd1) && 1 <= Numbers.DigitsValue(dd1) <= 31 && m1.date == "01-" + dd1
    requires |dd2| == 2 && Numbers.AllDigits(dd2) && 1 <= Numbers.DigitsValue(dd2) <= 31 && m2.date == "01-" + dd2
    requires parseAmount(m1.amount) == Some(a1) && parseAmount(m2.amount) == Some(a2)
    requires !Text.AllSpace(formatDate(Calendar.Date(year, 1, Numbers.DigitsValue(dd1))))
    ensures Submit(None, m1, year, parseAmount, formatDate, formatAmount) == (Stored, Some(wb1))
    ensures Submit(Some(wb1), m2, year, parseAmount, formatDate, formatAmount) == (Stored, Some(wb2))
    ensures "jan" in wb2 && wb2["jan"] == [
              [formatDate(Calendar.Date(year, 1, Numbers.DigitsValue(dd1))), m1.restaurant, formatAmount(a1)],
              [formatDate(Calendar.Date(year, 1, Numbers.DigitsValue(dd2))), m2.restaurant, formatAmount(a2)]]
  {
    var row1 := [formatDate(Calendar.Date(year, 1, Numbers.DigitsValue(dd1))), m1.restaurant, formatAmount(a1)];
    var row2 := [formatDate(Calendar.Date(year, 1, Numbers.DigitsValue(dd2))), m2.restaurant, formatAmount(a2)];
    JanuaryEntryIntoNewFile(m1, year, parseAmount, formatDate, formatAmount, dd1, a1);
    wb1 := Submit(None, m1, year, parseAmount, formatDate, formatAmount).1.value;
    assert wb1["jan"] == [row1];
    Sheets.SingleFilledRow(row1);
    JanuaryEntryOntoFilledSheet(wb1, m2, year, parseAmount, formatDate, formatAmount, dd2, a2);
    wb2 := Submit(Some(wb1), m2, year, parseAmount, formatDate, formatAmount).1.value;
    assert wb2["jan"] == [row1] + [row2];
  }
}

=== FILE: sheets.dfy ===
/** The spreadsheet side of the ledger: which sheet an entry goes to, which
    row it takes, the one-time creation of the month sheets, and the three
    cell writes. The workbook is a value mapping sheet names to their rows as
    the spreadsheet library's `GetRows` returns them (each row a sequence of
    cell texts, column A first). */
module Sheets {
  import opened Wrappers
  import Text
  import Numbers
  import Calendar

  type Row = seq<string>
  type Sheet = seq<Row>
  type Workbook = map<string, Sheet>

  /** The month sheets, January first. */
  const Months: seq<string> := ["jan", "feb", "mar", "apr", "may", "jun", "jul", "aug", "sep", "oct", "nov", "dec"]

  /** The sheet a new workbook starts with, and where an entry whose month
      matches no month sheet would go. */
  const DefaultSheet: string := "Sheet1"

  /** The month sheets have twelve distinct names, none of them the default
      sheet's. */
  lemma MonthNamesDistinct()
    ensures |Months| == 12
    ensures forall i, j :: 0 <= i < j < 12 ==> Months[i] != Months[j]
    ensures DefaultSheet !in Months
  {
  }

  // ---------------------------------------------------------------------
  // Routing

  /** The loop of `getSheetNameForDate` from index `i` on: the name of the
      first month sheet at or after `i` whose number matches `month`, or the
      default sheet when none does. */
  function SheetNameFrom(month: int, i: nat): (name: string)
    requires i <= |Months|
    ensures i + 1 <= month <= 12 ==> name == Months[month - 1]
    ensures !(i + 1 <= month <= 12) ==> name == DefaultSheet
    decreases |Months| - i
  {
    if i == |Months| then DefaultSheet
    else if month == i + 1 then Months[i]
    else SheetNameFrom(month, i + 1)
  }

  /** `getSheetNameForDate`: month `m` in 1..12 goes to `Months[m - 1]`,
      anything else to the default sheet. */
  function SheetNameForDate(date: Calendar.Date): (name: string)
    ensures 1 <= date.month <= 12 ==> name == Months[date.month - 1]
    ensures !(1 <= date.month <= 12) ==> name == DefaultSheet
  {
    SheetNameFrom(date.month, 0)
  }

  /** Distinct months go to distinct sheets, and every month goes to a month
      sheet: routing is one-to-one and never falls back to the default. */
  lemma RoutingIsInjective(d1: Calendar.Date, d2: Calendar.Date)
    requires 1 <= d1.month <= 12 && 1 <= d2.month <= 12
    ensures SheetNameForDate(d1) in Months
    ensures SheetNameForDate(d1) != DefaultSheet
    ensures SheetNameForDate(d1) == SheetNameForDate(d2) <==> d1.month == d2.month
  {
    MonthNamesDistinct();
  }

  // ---------------------------------------------------------------------
  // Insertion point

  /** A row counts as empty when it has no cells or its first cell (column A)
      is white space only, which is exactly when trimming that cell leaves
      nothing (`Text.TrimSpace`'s contract). */
  predicate IsBlankRow(row: Row) {
    |row| == 0 || Text.AllSpace(row[0])
  }

  /** `n` is where the next entry goes: a 1-based row number such that every
      row above it is filled, and that is either an empty row or the row just
      past the last one. */
  predicate IsInsertionPoint(rows: Sheet, n: int) {
    && 1 <= n <= |rows| + 1
    && (forall i :: 0 <= i < n - 1 ==> !IsBlankRow(rows[i]))
    && (n <= |rows| ==> IsBlankRow(rows[n - 1]))
  }

  /** There is only one insertion point in a sheet. */
  lemma InsertionPointUnique(rows: Sheet, n1: int, n2: int)
    requires IsInsertionPoint(rows, n1) && IsInsertionPoint(rows, n2)
    ensures n1 == n2
  {
  }

  /** `findFirstEmptyRow`, as a function: the 1-based number of the first
      empty row, or one past the last row when every row is filled. */
  function FirstEmptyRow(rows: Sheet): (n: nat)
    ensures IsInsertionPoint(rows, n)
  {
    if |rows| == 0 then 1
    else if IsBlankRow(rows[0]) then 1
    else 1 + FirstEmptyRow(rows[1..])
  }

  /** `findFirstEmptyRow` as the source writes it: a scan that returns at
      the first empty row and falls through to `len(rows) + 1`. */
  method FindFirstEmptyRow(rows: Sheet) returns (n: int)
    ensures IsInsertionPoint(rows, n)
    ensures n == FirstEmptyRow(rows)
  {
    var i := 0;
    while i < |rows|
      invariant 0 <= i <= |rows|
      invariant forall j :: 0 <= j < i ==> !IsBlankRow(rows[j])
    {
      var row := rows[i];
      if |row| == 0 {
        n := i + 1;
        InsertionPointUnique(rows, n, FirstEmptyRow(rows));
        return;
      }
      if Text.TrimSpace(row[0]) == "" {
        n := i + 1;
        InsertionPointUnique(rows, n, FirstEmptyRow(rows));
        return;
      }
      i := i + 1;
    }
    n := |rows| + 1;
    InsertionPointUnique(rows, n, FirstEmptyRow(rows));
  }

  /** A sheet with one row whose date cell is not blank has its insertion
      point on row 2. */
  lemma SingleFilledRow(row: Row)
    requires |row| >= 1 && !Text.AllSpace(row[0])
    ensures FirstEmptyRow([row]) == 2
  {
    assert [row][1..] == [];
  }

  /** When every row is filled, the entry goes on a fresh row after them. */
  lemma FullSheetAppends(rows: Sheet)
    requires forall i :: 0 <= i < |rows| ==> !IsBlankRow(rows[i])
    ensures FirstEmptyRow(rows) == |rows| + 1
  {
  }

  // ---------------------------------------------------------------------
  // Cell references

  /** The cell reference `fmt.Sprintf("%c%d", column, row)`, e.g. "A12". */
  function CellName(column: char, row: int): (name: string)
    ensures |name| >= 2 && name[0] == column
    ensures row >= 0 ==> Numbers.AllDigits(name[1..]) && Numbers.DigitsValue(name[1..]) == row
  {
    var name := [column] + Numbers.FormatInt(row);
    assert row >= 0 ==> name[1..] == Numbers.FormatNat(row);
    name
  }

  /** The library's reading of a cell reference, for one-letter columns: a
      letter `A`..`Z` followed by the decimal digits of a row number of at
      least 1. The result is the 0-based column and the 1-based row. */
  function ParseCellName(name: string): Option<(nat, nat)> {
    if |name| < 2 || !('A' <= name[0] <= 'Z') then None
    else
      var digits := name[1..];
      if !Numbers.AllDigits(digits) then None
      else
        var row := Numbers.DigitsValue(digits);
        if row < 1 then None else Some(((name[0] as int) - ('A' as int), row))
  }

  /** The references `updateSheet` builds are read back as the column and
      row they were built from. */
  lemma CellNameRoundTrip(column: char, row: int)
    requires 'A' <= column <= 'Z' && row >= 1
    ensures ParseCellName(CellName(column, row)) == Some(((column as int) - ('A' as int), row))
  {
  }

  // ---------------------------------------------------------------------
  // Cell writes

  /** `row` with cell `col` (0-based) set to `v`, padding with empty cells
      when the row is shorter. */
  function SetInRow(row: Row, col: nat, v: string): (r: Row)
    ensures |r| == if col < |row| then |row| else col + 1
    ensures r[col] == v
    ensures forall j :: 0 <= j < |r| && j != col ==> r[j] == (if j < |row| then row[j] else "")
  {
    var padded := row + seq(if col < |row| then 0 else col + 1 - |row|, _ => "");
    padded[col := v]
  }

  /** The sheet with cell (`rowNumber`, `col`) set to `v`, padding with empty
      rows when the sheet is shorter. */
  function SetCell(rows: Sheet, rowNumber: nat, col: nat, v: string): (r: Sheet)
    requires rowNumber >= 1
    ensures |r| == if rowNumber <= |rows| then |rows| else rowNumber
    ensures r[rowNumber - 1] == SetInRow(if rowNumber <= |rows| then rows[rowNumber - 1] else [], col, v)
    ensures forall i :: 0 <= i < |r| && i != rowNumber - 1 ==> r[i] == (if i < |rows| then rows[i] else [])
  {
    var padded := rows + seq(if rowNumber <= |rows| then 0 else rowNumber - |rows|, _ => []);
    padded[rowNumber - 1 := SetInRow(padded[rowNumber - 1], col, v)]
  }

  /** `SetCellValue(sheet, cell, v)`. A reference the library cannot read,
      or a sheet the workbook does not have, leaves the workbook as it is:
      the library reports an error there, which the source ignores. */
  function SetCellValue(wb: Workbook, sheet: string, cell: string, v: string): (r: Workbook)
    ensures r.Keys == wb.Keys
    ensures forall name :: name in wb && name != sheet ==> r[name] == wb[name]
  {
    if sheet !in wb then wb
    else
      match ParseCellName(cell)
      case None => wb
      case Some((col, row)) => wb[sheet := SetCell(wb[sheet], row, col, v)]
  }

  // ---------------------------------------------------------------------
  // Bootstrap

  /** The workbook `excelize.NewFile` creates: the default sheet alone. */
  function NewFile(): (wb: Workbook)
    ensures wb.Keys == {DefaultSheet} && wb[DefaultSheet] == []
  {
    map[DefaultSheet := []]
  }

  /** `NewSheet(name)`: an empty sheet under a new name; a name already
      present keeps its sheet. */
  function NewSheet(wb: Workbook, name: string): (r: Workbook)
    ensures r.Keys == wb.Keys + {name}
    ensures forall n :: n in wb ==> r[n] == wb[n]
    ensures name !in wb ==> r[name] == []
  {
    if name in wb then wb else wb[name := []]
  }

  /** The loop of `setupSheet`: `NewSheet` for each name in turn. Existing
      sheets keep their rows, the named ones are added empty, nothing else
      appears. */
  function AddSheets(wb: Workbook, names: seq<string>): (r: Workbook)
    ensures r.Keys == wb.Keys + set name | name in names
    ensures forall name :: name in wb ==> r[name] == wb[name]
    ensures forall name :: name in r && name !in wb ==> r[name] == []
    decreases |names|
  {
    if |names| == 0 then wb
    else
      var r := AddSheets(NewSheet(wb, names[0]), names[1..]);
      assert (set name | name in names) == {names[0]} + set name | name in names[1..] by {
        assert names == [names[0]] + names[1..];
      }
      r
  }

  /** `setupSheet` on an open workbook: when the `jan` sheet exists the
      workbook is left alone; otherwise all twelve month sheets are made to
      exist. Sheets already there are never changed or removed, and the only
      sheets added are empty month sheets. */
  function SetupSheet(wb: Workbook): (r: Workbook)
    ensures Months[0] in wb ==> r == wb
    ensures Months[0] !in wb ==> forall name :: name in Months ==> name in r
    ensures forall name :: name in wb ==> name in r && r[name] == wb[name]
    ensures forall name :: name in r && name !in wb ==> name in Months && r[name] == []
  {
    if Months[0] in wb then wb else AddSheets(wb, Months)
  }

  /** `setupSheet` on the file: a missing file is first created as a new
      workbook, then set up. Afterwards the `jan` sheet always exists. */
  function SetupFile(file: Option<Workbook>): (r: Workbook)
    ensures Months[0] in r
    ensures file.Some? ==> r == SetupSheet(file.value)
    ensures file.None? ==> r.Keys == {DefaultSheet} + set name | name in Months
  {
    match file
    case None => SetupSheet(NewFile())
    case Some(wb) => SetupSheet(wb)
  }

  /** All twelve month sheets are present. */
  predicate HasMonthSheets(wb: Workbook) {
    forall name :: name in Months ==> name in wb
  }

  /** After set-up every month sheet exists, unless the workbook already had
      a `jan` sheet but lacked some other month: set-up only looks for
      `jan`. */
  lemma SetupMakesMonthSheets(file: Option<Workbook>)
    requires file.Some? ==> Months[0] !in file.value || HasMonthSheets(file.value)
    ensures HasMonthSheets(SetupFile(file))
  {
  }

  /** Setting the file up again after a set-up changes nothing: the second
      request of a run finds the file as the first one left it. */
  lemma SetupFileIdempotent(file: Option<Workbook>)
    ensures SetupFile(Some(SetupFile(file))) == SetupFile(file)
  {
  }

  /** Setting up twice is setting up once. */
  lemma SetupSheetIdempotent(wb: Workbook)
    ensures SetupSheet(SetupSheet(wb)) == SetupSheet(wb)
  {
  }

  /** On a fresh workbook, set-up yields every month sheet, empty. */
  lemma SetupFreshWorkbook(wb: Workbook)
    requires forall name :: name in Months ==> name !in wb
    ensures forall name :: name in Months ==> name in SetupSheet(wb) && SetupSheet(wb)[name] == []
  {
  }

  // ---------------------------------------------------------------------
  // Appending an entry

  /** The three cell texts of one ledger line: the formatted date, the
      restaurant and the formatted amount. */
  datatype Line = Line(date: string, restaurant: string, amount: string)

  /** The rows `GetRows` gives for `sheet`: none when the sheet is absent,
      so a missing sheet's insertion point is row 1. */
  function RowsOf(wb: Workbook, sheet: string): (rows: Sheet)
    ensures sheet in wb ==> rows == wb[sheet]
    ensures sheet !in wb ==> FirstEmptyRow(rows) == 1
  {
    if sheet in wb then wb[sheet] else []
  }

  /** `rows'` is `rows` with `line` written into columns A, B and C of row
      `n` (1-based): the sheet grows only when `n` is past its end, every
      other row is kept, and the written row keeps its cells beyond C. */
  predicate LinePlaced(rows: Sheet, rows': Sheet, n: int, line: Line) {
    && 1 <= n <= |rows'|
    && |rows'| == (if n <= |rows| then |rows| else n)
    && (forall i :: 0 <= i < |rows'| && i != n - 1 ==> rows'[i] == (if i < |rows| then rows[i] else []))
    && var before := if n <= |rows| then rows[n - 1] else [];
      && |rows'[n - 1]| == (if |before| < 3 then 3 else |before|)
      && rows'[n - 1][0] == line.date
      && rows'[n - 1][1] == line.restaurant
      && rows'[n - 1][2] == line.amount
      && (forall j :: 3 <= j < |before| ==> rows'[n - 1][j] == before[j])
  }

  /** The three writes of one line at row `n`. */
  function WriteLine(rows: Sheet, n: nat, line: Line): (r: Sheet)
    requires n >= 1
    ensures LinePlaced(rows, r, n, line)
  {
    SetCell(SetCell(SetCell(rows, n, 0, line.date), n, 1, line.restaurant), n, 2, line.amount)
  }

  /** Writing through a cell reference built from a column letter and a row
      number writes that column of that row. */
  lemma SetCellValueByName(wb: Workbook, sheet: string, column: char, n: nat, v: string)
    requires sheet in wb && 'A' <= column <= 'Z' && n >= 1
    ensures SetCellValue(wb, sheet, CellName(column, n), v)
         == wb[sheet := SetCell(wb[sheet], n, (column as int) - ('A' as int), v)]
  {
    CellNameRoundTrip(column, n);
    SetCellValueAt(wb, sheet, CellName(column, n), v, (column as int) - ('A' as int), n);
  }

  /** A write through a reference the library reads as (`col`, `row`). */
  lemma SetCellValueAt(wb: Workbook, sheet: string, cell: string, v: string, col: nat, row: nat)
    requires sheet in wb && ParseCellName(cell) == Some((col, row))
    ensures row >= 1
    ensures SetCellValue(wb, sheet, cell, v) == wb[sheet := SetCell(wb[sheet], row, col, v)]
  {
  }

  /** `updateSheet`: find the sheet for `date`, take its first empty row and
      write the line into columns A, B and C there. Every other sheet is
      unchanged, and a sheet the workbook lacks is not created. */
  function UpdateSheet(wb: Workbook, date: Calendar.Date, line: Line): (r: Workbook)
    ensures r.Keys == wb.Keys
    ensures forall name :: name in wb && name != SheetNameForDate(date) ==> r[name] == wb[name]
    ensures SheetNameForDate(date) !in wb ==> r == wb
    ensures SheetNameForDate(date) in wb ==>
      LinePlaced(wb[SheetNameForDate(date)], r[SheetNameForDate(date)], FirstEmptyRow(wb[SheetNameForDate(date)]), line)
  {
    var name := SheetNameForDate(date);
    var n := FirstEmptyRow(RowsOf(wb, name));
    var wb1 := SetCellValue(wb, name, CellName('A', n), line.date);
    var wb2 := SetCellValue(wb1, name, CellName('B', n), line.restaurant);
    var wb3 := SetCellValue(wb2, name, CellName('C', n), line.amount);
    assert name in wb ==> wb3[name] == WriteLine(wb[name], n, line) by {
      if name in wb {
        SetCellValueByName(wb, name, 'A', n, line.date);
        SetCellValueByName(wb1, name, 'B', n, line.restaurant);
        SetCellValueByName(wb2, name, 'C', n, line.amount);
      }
    }
    wb3
  }

  /** A row that held an entry before an update still holds it afterwards:
      the line only ever lands on an empty row or a new one. */
  lemma UpdateNeverOverwrites(wb: Workbook, date: Calendar.Date, line: Line)
    requires SheetNameForDate(date) in wb
    ensures var rows := wb[SheetNameForDate(date)];
      forall i :: 0 <= i < |rows| && !IsBlankRow(rows[i]) ==>
        UpdateSheet(wb, date, line)[SheetNameForDate(date)][i] == rows[i]
  {
    var name := SheetNameForDate(date);
    LinePlacedKeepsFilledRows(wb[name], UpdateSheet(wb, date, line)[name], line);
  }

  /** A placed line leaves the sheet no shorter and every other old row as
      it was. */
  lemma LinePlacedFrame(rows: Sheet, rows': Sheet, n: int, line: Line)
    requires LinePlaced(rows, rows', n, line)
    ensures |rows| <= |rows'|
    ensures forall i :: 0 <= i < |rows| && i != n - 1 ==> rows'[i] == rows[i]
  {
  }

  /** Placing a line at a sheet's insertion point keeps every filled row. */
  lemma LinePlacedKeepsFilledRows(rows: Sheet, rows': Sheet, line: Line)
    requires LinePlaced(rows, rows', FirstEmptyRow(rows), line)
    ensures forall i :: 0 <= i < |rows| && !IsBlankRow(rows[i]) ==> rows'[i] == rows[i]
  {
    var n := FirstEmptyRow(rows);
    LinePlacedFrame(rows, rows', n, line);
    forall i | 0 <= i < |rows| && !IsBlankRow(rows[i])
      ensures rows'[i] == rows[i]
    {
      assert i != n - 1;
      assert i < |rows'|;
    }
  }

  /** A line placed just past the last row is a new last row holding
      exactly the three written cells. */
  lemma LinePlacedAtEnd(rows: Sheet, rows': Sheet, line: Line)
    requires LinePlaced(rows, rows', |rows| + 1, line)
    ensures rows' == rows + [[line.date, line.restaurant, line.amount]]
  {
    var cells := [line.date, line.restaurant, line.amount];
    assert rows'[|rows|] == cells;
    forall i | 0 <= i < |rows'|
      ensures rows'[i] == (rows + [cells])[i]
    {
      if i < |rows| {
        assert rows'[i] == rows[i];
      }
    }
  }

  /** On a sheet whose rows are all filled, an update appends the line as a
      new last row of exactly the three written cells. */
  lemma UpdateFullSheetAppends(wb: Workbook, date: Calendar.Date, line: Line)
    requires SheetNameForDate(date) in wb
    requires forall i :: 0 <= i < |wb[SheetNameForDate(date)]| ==> !IsBlankRow(wb[SheetNameForDate(date)][i])
    ensures UpdateSheet(wb, date, line)[SheetNameForDate(date)]
         == wb[SheetNameForDate(date)] + [[line.date, line.restaurant, line.amount]]
  {
    var name := SheetNameForDate(date);
    var rows := wb[name];
    FullSheetAppends(rows);
    LinePlacedAtEnd(rows, UpdateSheet(wb, date, line)[name], line);
  }

  /** Placing a line whose date text is not blank at a sheet's insertion
      point moves the insertion point strictly down. */
  lemma LinePlacedAdvances(rows: Sheet, rows': Sheet, line: Line)
    requires LinePlaced(rows, rows', FirstEmptyRow(rows), line)
    requires !Text.AllSpace(line.date)
    ensures FirstEmptyRow(rows') > FirstEmptyRow(rows)
  {
    var n := FirstEmptyRow(rows);
    forall i | 0 <= i < n
      ensures !IsBlankRow(rows'[i])
    {
      if i < n - 1 {
        assert rows'[i] == rows[i];
      }
    }
  }

  /** After a line whose date text is not blank is written, the sheet's
      insertion point moves strictly down: the next entry goes below it. */
  lemma UpdateAdvancesInsertionPoint(wb: Workbook, date: Calendar.Date, line: Line)
    requires SheetNameForDate(date) in wb
    requires !Text.AllSpace(line.date)
    ensures var name := SheetNameForDate(date);
      FirstEmptyRow(UpdateSheet(wb, date, line)[name]) > FirstEmptyRow(wb[name])
  {
    var name := SheetNameForDate(date);
    LinePlacedAdvances(wb[name], UpdateSheet(wb, date, line)[name], line);
  }
}

=== FILE: text.dfy ===
/** The pieces of Go's `strings` and `unicode` packages the ledger relies on:
    white-space classification, `strings.TrimSpace` and `strings.Split` with a
    one-character separator. Strings are sequences of Unicode scalar values. */
module Text {

  /** The white-space characters of Latin-1 as Go's `unicode.IsSpace` lists
      them: tab, line feed, vertical tab, form feed, carriage return, space,
      NEL (U+0085) and no-break space (U+00A0). */
  const LatinSpace: string := "\t\n\U{B}\U{C}\r \U{85}\U{A0}"

  /** Go's `unicode.IsSpace`: the Latin-1 spaces plus the Unicode White_Space
      code points above U+00FF. */
  predicate IsSpace(c: char) {
    var n := c as int;
    || n == 0x09 || n == 0x0A || n == 0x0B || n == 0x0C || n == 0x0D || n == 0x20
    || n == 0x85 || n == 0xA0
    || n == 0x1680 || (0x2000 <= n <= 0x200A) || n == 0x2028 || n == 0x2029
    || n == 0x202F || n == 0x205F || n == 0x3000
  }

  /** Below U+0100 the white space is exactly Go's Latin-1 list; above it,
      white space lies between U+1680 and U+3000. */
  lemma IsSpaceTable(c: char)
    ensures c as int < 0x100 ==> (IsSpace(c) <==> c in LatinSpace)
    ensures c as int >= 0x100 && IsSpace(c) ==> 0x1680 <= c as int <= 0x3000
  {
  }

  /** Every character of `s` is white space (vacuously true of ""). */
  predicate AllSpace(s: string) {
    forall i :: 0 <= i < |s| ==> IsSpace(s[i])
  }

  /** Length of the longest all-space prefix of `s`. */
  function LeadingSpace(s: string): (n: nat)
    ensures n <= |s|
    ensures AllSpace(s[..n])
    ensures n < |s| ==> !IsSpace(s[n])
  {
    if |s| > 0 && IsSpace(s[0]) then 1 + LeadingSpace(s[1..]) else 0
  }

  /** Length of the longest all-space suffix of `s`. */
  function TrailingSpace(s: string): (n: nat)
    ensures n <= |s|
    ensures AllSpace(s[|s| - n..])
    ensures n < |s| ==> !IsSpace(s[|s| - n - 1])
  {
    if |s| > 0 && IsSpace(s[|s| - 1]) then 1 + TrailingSpace(s[..|s| - 1]) else 0
  }

  /** Go's `strings.TrimSpace`: `s` without its leading and trailing white
      space. The result is empty exactly when `s` is all white space, and
      otherwise starts and ends with a non-space character. */
  function TrimSpace(s: string): (t: string)
    ensures |t| <= |s|
    ensures t == [] <==> AllSpace(s)
    ensures t != [] ==> !IsSpace(t[0]) && !IsSpace(t[|t| - 1])
  {
    var i := LeadingSpace(s);
    var rest := s[i..];
    var j := TrailingSpace(rest);
    var t := rest[..|rest| - j];
    assert AllSpace(s) ==> i == |s|;
    assert i == |s| ==> AllSpace(s) by {
      if i == |s| {
        assert s[..i] == s;
      }
    }
    t
  }

  /** The trimmed string is a factor of `s` flanked by white space only:
      trimming removes nothing but white space. */
  lemma TrimSpaceRemovesOnlySpace(s: string) returns (i: nat, j: nat)
    ensures i <= j <= |s|
    ensures TrimSpace(s) == s[i..j]
    ensures AllSpace(s[..i]) && AllSpace(s[j..])
  {
    i := LeadingSpace(s);
    var rest := s[i..];
    var k := TrailingSpace(rest);
    j := i + |rest| - k;
    assert rest[..|rest| - k] == s[i..j];
    assert s[j..] == rest[|rest| - k..];
  }

  /** Number of occurrences of `c` in `s`. */
  function Occurrences(s: string, c: char): nat {
    if |s| == 0 then 0
    else (if s[0] == c then 1 else 0) + Occurrences(s[1..], c)
  }

  /** Inverse of `Split`: the parts glued back together with `sep` between
      neighbours (Go's `strings.Join`). */
  function Join(parts: seq<string>, sep: char): string {
    if |parts| == 0 then ""
    else if |parts| == 1 then parts[0]
    else parts[0] + [sep] + Join(parts[1..], sep)
  }

  /** Prepending text to the first part prepends it to the joined string. */
  lemma JoinPrependToFirst(x: string, parts: seq<string>, sep: char)
    requires |parts| >= 1
    ensures Join([x + parts[0]] + parts[1..], sep) == x + Join(parts, sep)
  {
    var q := [x + parts[0]] + parts[1..];
    if |parts| > 1 {
      assert q[1..] == parts[1..];
    }
  }

  /** Go's `strings.Split(s, sep)` for a one-character separator: the maximal
      separator-free pieces of `s`. There is one more piece than there are
      separators (so "" splits into [""]), no piece holds the separator, and
      joining the pieces with the separator gives `s` back. */
  function Split(s: string, sep: char): (parts: seq<string>)
    ensures |parts| == Occurrences(s, sep) + 1
    ensures forall k :: 0 <= k < |parts| ==> sep !in parts[k]
    ensures Join(parts, sep) == s
    decreases |s|
  {
    if |s| == 0 then [""]
    else
      var rest := Split(s[1..], sep);
      if s[0] == sep then
        var parts := [""] + rest;
        assert parts[1..] == rest;
        parts
      else
        JoinPrependToFirst([s[0]], rest, sep);
        [[s[0]] + rest[0]] + rest[1..]
  }

  /** A string without the separator splits into itself alone. */
  lemma {:induction false} SplitWithoutSeparator(s: string, sep: char)
    requires sep !in s
    ensures Split(s, sep) == [s]
  {
    if |s| > 0 {
      SplitWithoutSeparator(s[1..], sep);
      assert [s[0]] + s[1..] == s;
    }
  }

  /** A separator-free head followed by the separator splits off as the first
      piece. */
  lemma {:induction false} SplitAfterHead(a: string, b: string, sep: char)
    requires sep !in a
    ensures Split(a + [sep] + b, sep) == [a] + Split(b, sep)
    decreases |a|
  {
    var s := a + [sep] + b;
    if |a| == 0 {
      assert s[1..] == b;
    } else {
      assert s[1..] == a[1..] + [sep] + b;
      SplitAfterHead(a[1..], b, sep);
      assert [a[0]] + a[1..] == a;
    }
  }

  /** `Split` yields exactly two pieces `[a, b]` precisely when the string is
      `a`, one separator, then `b`, with no separator inside `a` or `b`. */
  lemma SplitInTwo(s: string, sep: char, a: string, b: string)
    ensures Split(s, sep) == [a, b] <==> (s == a + [sep] + b && sep !in a && sep !in b)
  {
    if s == a + [sep] + b && sep !in a && sep !in b {
      SplitAfterHead(a, b, sep);
      SplitWithoutSeparator(b, sep);
    }
    if Split(s, sep) == [a, b] {
      var parts := Split(s, sep);
      assert parts[1..] == [b];
      assert Join(parts, sep) == a + [sep] + Join([b], sep);
      assert sep !in parts[0] && sep !in parts[1];
    }
  }

  /** `Split` yields exactly two pieces precisely when the separator occurs
      exactly once. */
  lemma SplitInTwoIffOneSeparator(s: string, sep: char)
    ensures |Split(s, sep)| == 2 <==> Occurrences(s, sep) == 1
  {
  }
}

=== FILE: wrappers.dfy ===
/** Failure-carrying values used throughout the model in place of Go's
    `(value, error)` pairs. */
module Wrappers {

  /** A value that may be missing: a parse that failed, a sheet that is absent. */
  datatype Option<+T> = None | Some(value: T)

  /** Either a value or the error that stopped the computation. */
  datatype Result<+T, +E> = Ok(value: T) | Err(error: E)
}
